=== FILE: README.md ===
# piano-keys widget, modelled in Dafny

A model of the core of the `piano-keys` web component. It has three parts, one Dafny module each:

- `NoteGenerator` (`note_generator.dfy`) models the note sequencer of `src/note-generator.ts`.
  - It rotates the twelve pitch names so that they begin at the start pitch, then walks the rotated list forever.
  - It raises the octave at every "C" except the very first note.
  - Between calls, the JavaScript generator is the record `Generator`: the rotated list, the index and `first` flag the next resumption will use, and the octave counter. One `next()` call is `Next`. `NoteAt(start, i)` is the i-th yielded note, and `Take(start, n)` is the first n.
- `Keyboard` (`keyboard.dfy`) models the drawing built by `getNoteSvg` / `getKeysForNotes` in `src/piano.ts`.
  - It takes the first `keycount` notes.
  - A cursor starts at `-KeyWidth + 1`. A natural moves the cursor one key width and sits at the new cursor. A sharp sits 7 units right of the cursor and does not move it.
  - The drawing lists the naturals first, then the sharps.
  - The view box is `naturals * 10 + 6` wide.
  - Rects and the view box are values (`Rect`, `Svg`), not SVG text.
- `KeyState` (`key_state.dfy`) models the press state kept by `handleClick`, `setNoteDown` and `setNoteUp` in `src/piano.ts`.
  - The widget is a map from the note a rect stands for to the rect's fill and transform, plus the read-only flag and the list of dispatched `note-down` / `note-up` events.

Pitch names are the twelve constructors of `NoteGenerator.Pitch`. `NoteGenerator.Name` gives the string the source uses for each.

## Model

| member | source | states |
|---|---|---|
| NoteGenerator.NotesFacts | src/note-generator.ts:1-14 | The name list has twelve entries, all different. Every pitch is in it, and "C" is at index 3. |
| NoteGenerator.Pivot | src/note-generator.ts:23 | The pivot is below 12, and the name list holds the start pitch there. |
| NoteGenerator.PivotIsIndexOf | src/note-generator.ts:23 | The pivot is what `Notes.indexOf(startNote)` returns: the first index holding the start pitch. |
| NoteGenerator.IndexOf | src/note-generator.ts:23 | `indexOf` on a list containing the element returns an index holding it, and no earlier index holds it. |
| NoteGenerator.RotateAt | src/note-generator.ts:24 | Entry k of `Notes.slice(p) ++ Notes.slice(0, p)` is `Notes[(p + k) % 12]`. |
| NoteGenerator.Layout | src/note-generator.ts:23-24 | The rotated list has twelve entries and begins with the start pitch. |
| NoteGenerator.Next | src/note-generator.ts:28-36 | One `next()` yields the current list entry. The octave stays the same or goes up by one, and only on "C". `first` is false afterwards. |
| NoteGenerator.NoteAt | src/note-generator.ts:21-38 | Note i is named by entry `i % 12` of the rotated list: the inner loop walks the list and the outer loop restarts it. |
| NoteGenerator.Pull | src/piano.ts:124-125 | Pulling n values gives n notes, and value i is what the generator yields after i earlier `next()` calls. |
| NoteGenerator.Take | src/piano.ts:123-125 | The notes array of `getNoteSvg` has `noteCount` entries, and entry i is the i-th note of the sequence. |
| NoteGenerator.NoteName | src/note-generator.ts:23-34 | Note i is named `Notes[(pivot + i) % 12]`. |
| NoteGenerator.FirstNote | src/note-generator.ts:26-35 | The first note is the start pitch in octave 0, even when the start is "C". |
| NoteGenerator.OctaveStep | src/note-generator.ts:31-34 | From note i to note i+1 the octave goes up by exactly one when note i+1 is "C", and otherwise stays the same. |
| NoteGenerator.OctaveMonotone | src/note-generator.ts:26-36 | Octaves never decrease along the sequence. |
| NoteGenerator.NoteOctave | src/note-generator.ts:26-36 | Closed form of the octave: 0 up to the first "C" after the start, then one more every twelve notes. |
| NoteGenerator.NoteAtClosedForm | src/note-generator.ts:21-38 | The i-th note, name and octave, in closed form. `NoteAt` is total: there is a note at every index. |
| NoteGenerator.OctaveCountsCs | src/note-generator.ts:31-35 | The octave of note i equals the number of "C"s among notes 1..i, counted independently. |
| NoteGenerator.OctaveBound | src/note-generator.ts:26-36 | The octave of note i is at most the ceiling of i/12. |
| NoteGenerator.TwelveConsecutive | src/note-generator.ts:24-36 | Any twelve consecutive notes contain every pitch, and no two of them share a name. |
| NoteGenerator.NotesUnique | src/note-generator.ts:21-38 | No (name, octave) pair is yielded twice. |
| NoteGenerator.TakeClosed | src/piano.ts:124-125 | The first n notes equal the closed-form list. |
| NoteGenerator.StartingAtC | src/note-generator.test.ts:10-29 | Started at "C", the first thirteen notes are C..B in octave 0, then C in octave 1. |
| NoteGenerator.StartingAtA | src/note-generator.test.ts:31-49 | Started at "A", notes A, A#, B are in octave 0, and "C" opens octave 1 at the fourth note. |
| Keyboard.SharpPitches | src/piano.ts:144 | `IsSharp` holds exactly when the pitch's name string contains '#', as `name.includes("#")` tests. |
| Keyboard.PlaceKeepsNotes | src/piano.ts:141-159 | Placing keeps one position per note, with that note's name and octave, in order. |
| Keyboard.Positions | src/piano.ts:139-159 | The positions stand for the notes one for one, in order. The first sits at 1 when it is a natural and at -2 when it is a sharp. |
| Keyboard.KeyOffset | src/piano.ts:139-159 | With k naturals before it, a natural sits at 10k + 1 and a sharp at 10k - 2. |
| Keyboard.SharpAfterNatural | src/piano.ts:147-152 | A sharp sits exactly 7 units right of the natural that last precedes it. |
| Keyboard.NaturalOffsets | src/piano.ts:149-152 | The k-th natural sits at 1 + 10k. Naturals increase left to right, one key width apart. Their count is the natural count. |
| Keyboard.Select | src/piano.ts:161-165 | A filter keeps only positions of the requested kind and never grows the list. |
| Keyboard.SelectMembers | src/piano.ts:161-165 | A position is kept exactly when it is present and of the requested kind. |
| Keyboard.SelectPartition | src/piano.ts:161-165 | Naturals and sharps split the positions: the counts add up, and together they are a permutation. |
| Keyboard.Arrange | src/piano.ts:161-170 | Naturals-then-sharps keeps the length and is a permutation of the positions. |
| Keyboard.ArrangeOrder | src/piano.ts:161-170 | The output is a permutation of the positions: all naturals first, then all sharps, each kind in input order. |
| Keyboard.NormalKey | src/piano.ts:19-30 | A natural is drawn white, 10 wide, and not as a sharp. |
| Keyboard.SharpKey | src/piano.ts:6-17 | A sharp is drawn "#555555", 6 wide, and as a sharp. |
| Keyboard.RenderKey | src/piano.ts:161-165 | A rect carries its position's note, octave and offset. It is a sharp rect exactly when the name has '#'. |
| Keyboard.KeysAsSource | src/piano.ts:161-170 | Drawing each arranged position with the one `RenderKey` dispatch gives the same rects as the source's two pipelines: the naturals filtered and drawn with `normalKey`, then the sharps filtered and drawn with `sharpKey`. |
| Keyboard.KeysForNotes | src/piano.ts:138-171 | One rect per note. Exactly the first NaturalCount rects are drawn as naturals, and the rest as sharps. |
| Keyboard.TotalWidth | src/piano.ts:127-131 | The width is 10 for each natural key laid out, plus 6. It lies between 6 and 10 per note plus 6. |
| Keyboard.NoteSvg | src/piano.ts:121-135 | The view box is 52 high and the drawing has one rect per requested key. Every rect lies within the view box's height, whatever the start pitch. |
| Keyboard.KeysLayout | src/piano.ts:138-171 | There is one rect per note. The first NaturalCount rects are the naturals, at 1, 11, 21, ..., and the rest are the sharps. |
| Keyboard.KeysWithinView | src/piano.ts:127-171 | When the first note is a natural, or there are none, every rect lies within [0, totalWidth]. |
| Keyboard.KeysNotes | src/piano.ts:138-171 | The rects stand for exactly the notes given. |
| Keyboard.SelectDistinct | src/piano.ts:161-165 | Filtering keeps distinct notes distinct. |
| Keyboard.ArrangeDistinct | src/piano.ts:161-170 | Naturals-then-sharps keeps distinct notes distinct. |
| Keyboard.PositionsDistinct | src/piano.ts:121-159 | The placed notes of a rendered keyboard are pairwise different. |
| Keyboard.NoteSvgKeys | src/piano.ts:121-171 | The drawing has exactly keycount rects, stands for exactly the first keycount notes, and draws no note twice. |
| Keyboard.NoteSvgFits | src/piano.ts:121-171 | When the start pitch is a natural, the whole drawing lies inside its view box, horizontally and vertically. |
| Keyboard.NoteSvgWidth | src/piano.ts:127-134 | The view box is 52 high. Its width counts the natural rects: the first (width - 6) / 10 rects are naturals at 1 + 10i, and the rest are sharps. |
| KeyState.Configure | src/piano.ts:75-81 | Re-rendering sets the read-only flag and keeps the dispatched events. |
| KeyState.ConfigureLooks | src/piano.ts:75-81 | After rendering there is one key per note drawn, each at rest with its rect's fill: white for naturals, "#555555" for sharps. |
| KeyState.SetNoteDown | src/piano.ts:107-112 | The key turns grey and is squashed. No other key changes, and nothing is dispatched. |
| KeyState.SetNoteUp | src/piano.ts:114-119 | The key is released with its rest fill and the "scale(1 1)" transform. No other key changes, and nothing is dispatched. |
| KeyState.HandleClick | src/piano.ts:84-104 | A read-only widget, or a click off the keys, changes nothing. Otherwise one note-down / note-up event is appended, and the key is then pressed or released whatever its prior state. Other keys are untouched. |
| KeyState.DownThenUp | src/piano.ts:107-119 | Pressing then releasing a key at rest restores its fill and leaves other keys, events and the flag unchanged. The result equals releasing alone. |
| KeyState.ClickKeepsValid | src/piano.ts:84-119 | Every key keeps one of its three possible looks after any click. |
| KeyState.ReplayEvents | src/piano.ts:84-104 | Read-only ignores any click sequence. Otherwise the events dispatched are exactly one per click on a key, in order. |
| KeyState.ReplayLook | src/piano.ts:84-119 | After any sequence of clicks handled one after another, each key looks as the last click on it left it, or as before if it was not clicked. |
| KeyState.NestedRelease | src/piano.ts:97-101 | A `note-down` listener that releases the same key (as src/piano.test.ts:113-122 does) logs note-down then note-up, yet the key ends pressed: the outer press sets the key after the inner release. Handled one after another, the same two clicks log the same events but leave the key released. |

## Left out

- Attribute parsing (`readAttributes`, src/piano.ts:56-62) is left out. `NoteSvg` takes the key count as a `nat` and the start pitch directly, so a default of 88, a `parseInt` that yields `NaN`, or a negative count are not modelled. Nor is the `RangeError` that `new Array(noteCount)` (src/piano.ts:125) throws for counts of 2^32 or more: `NoteSvg` accepts every `nat`.
- The `Layouts` table that maps a layout name to a start pitch (imported from `./note-generator` at src/piano.ts:1) is not modelled. The start pitch is a parameter. The tests' "AtoG" and "CtoB" layouts start at "A" and "C".
- A start pitch outside the twelve names, for which `indexOf` returns -1, cannot be written down: `Pitch` has only the twelve names.
- The SVG and HTML text is left out, as are the empty style sheet, `customElements.define` and `observedAttributes`. This includes the commas that interpolating the two rect arrays puts into the markup. Rects and the view box are modelled as values.
- Registering the mouse listeners, `preventDefault`, and the `CustomEvent` objects are left out. An event log stands in for dispatch.
- `handleClick` dispatches before it changes the key. A listener that reads the key during dispatch would see the old look; the model does not represent listeners, so it keeps only the order of events in the log.
- `Replay` handles clicks one after another. A listener that itself triggers a click (as src/piano.test.ts:113-122 does) runs the inner `handleClick` before the outer one sets the key, so the outer click's look wins although the inner click came last. `NestedRelease` shows this for one nested release; general listener nesting is not modelled.
- `setNoteDown` / `setNoteUp` on a note with no rect is not modelled. In the source, `querySelector` returns null and the `!` assertion lets `setAttribute` throw. Here the key's presence is a precondition, and `Keyboard.NoteSvgKeys` shows each drawn note has exactly one rect.
- The octave is a number here. The source reads it back from the `data-octave` attribute as a string and writes the same text into the selector.
- A key first drawn has no `transform` attribute. A released key has `scale(1 1)`. The two are distinct looks (`Untransformed`, `Unsquashed`) although they render the same.
- `setNoteDown` picks "grey" in both arms of its sharp test, so `PressedLook` is grey for every key.
- A mouse-up over a key dispatches `note-up` and releases the key whether or not it was pressed. There is no mouse-leave handling, so a key pressed and left stays pressed. The event is dispatched before the key changes (src/piano.ts:84-104).
- `rollup.config.js` (build configuration) is left out.

=== FILE: key_state.dfy ===
/**
 The press state of the piano-keys widget (src/piano.ts, `handleClick`,
 `setNoteDown`, `setNoteUp`, and the re-render in `connectedCallback` /
 `attributeChangedCallback`).

 The source keeps the state in the DOM: each key's `<rect>` carries a `fill`
 and, once touched, a `transform` attribute. Here the drawing is reduced to
 what those calls read and write: a map from the note a rect stands for to its
 look, the read-only flag, and the list of custom events dispatched so far.
 The map is keyed by note because the source finds a rect by its
 `data-note` / `data-octave` pair, and `Keyboard.NoteSvgKeys` shows no pair is
 drawn twice.
 */
module KeyState {
  import opened NoteGenerator
  import opened Keyboard

  /** The `transform` attribute: absent as first drawn, "scale(1 0.95)" while
      pressed, "scale(1 1)" once released. */
  datatype Transform = Untransformed | Squashed | Unsquashed

  datatype Look = Look(fill: Colour, transform: Transform)

  /** A dispatched `note-down` or `note-up` custom event and its detail. */
  datatype Event = NoteDown(note: Note) | NoteUp(note: Note)

  /** What a mouse event hit: a key's rect, or anything else. */
  datatype Target = KeyRect(note: Note) | Elsewhere

  datatype Click = Click(target: Target, down: bool)

  datatype Option<T> = None | Some(value: T)

  datatype Widget = Widget(looks: map<Note, Look>, readOnly: bool, events: seq<Event>)

  /** The fill a key is drawn with and returns to on release. */
  function RestFill(n: Note): Colour
  {
    if IsSharp(n.name) then Charcoal else White
  }

  /** The look `setNoteDown` gives a key. */
  function PressedLook(n: Note): Look
  {
    // Both arms are grey: `setNoteDown` picks "grey" for sharps and naturals alike.
    var colour := if IsSharp(n.name) then Grey else Grey;
    Look(colour, Squashed)
  }

  /** The look `setNoteUp` gives a key. */
  function ReleasedLook(n: Note): Look
  {
    Look(RestFill(n), Unsquashed)
  }

  /** Every note has one of the three looks the widget ever gives it. */
  predicate LookValid(n: Note, l: Look)
  {
    l == Look(RestFill(n), Untransformed) || l == PressedLook(n) || l == ReleasedLook(n)
  }

  predicate WidgetValid(w: Widget)
  {
    forall n :: n in w.looks ==> LookValid(n, w.looks[n])
  }

  /** Whether a key is currently drawn pressed. */
  predicate Pressed(w: Widget, n: Note)
    requires n in w.looks
  {
    w.looks[n].transform == Squashed
  }

  /** Re-rendering (`connectedCallback`, `attributeChangedCallback`): the keys
      of the new drawing, all at rest; the events already dispatched stay
      dispatched. */
  function Configure(w: Widget, keyCount: nat, start: Pitch, readOnly: bool): (r: Widget)
    ensures r.events == w.events && r.readOnly == readOnly
  {
    var keys := NoteSvg(keyCount, start).keys;
    var looks := map r | r in keys :: RectTone(r) := Look(r.fill, Untransformed);
    Widget(looks, readOnly, w.events)
  }

  /** `setNoteDown`: the key turns grey and is squashed. */
  function SetNoteDown(w: Widget, n: Note): (r: Widget)
    requires n in w.looks
    ensures r.looks.Keys == w.looks.Keys && r.readOnly == w.readOnly && r.events == w.events
    ensures Pressed(r, n) && r.looks[n] == Look(Grey, Squashed)
    ensures forall m :: m in w.looks && m != n ==> r.looks[m] == w.looks[m]
  {
    w.(looks := w.looks[n := PressedLook(n)])
  }

  /** `setNoteUp`: the key returns to its rest fill, unsquashed. */
  function SetNoteUp(w: Widget, n: Note): (r: Widget)
    requires n in w.looks
    ensures r.looks.Keys == w.looks.Keys && r.readOnly == w.readOnly && r.events == w.events
    ensures !Pressed(r, n) && r.looks[n].fill == RestFill(n)
    ensures r.looks[n] == Look(RestFill(n), Unsquashed)
    ensures forall m :: m in w.looks && m != n ==> r.looks[m] == w.looks[m]
  {
    w.(looks := w.looks[n := ReleasedLook(n)])
  }

  /** The precondition every click needs: a rect it hits is a drawn key. */
  predicate Hits(w: Widget, t: Target)
  {
    t.KeyRect? ==> t.note in w.looks
  }

  /** `handleClick`: ignored when read-only or off the keys; otherwise the
      event is dispatched first and then the key is pressed or released,
      whatever state it was in. */
  function HandleClick(w: Widget, t: Target, down: bool): (r: Widget)
    requires Hits(w, t)
    ensures r.looks.Keys == w.looks.Keys && r.readOnly == w.readOnly
    ensures w.readOnly || t == Elsewhere ==> r == w
    ensures !w.readOnly && t.KeyRect? ==>
      && r.events == w.events + [if down then NoteDown(t.note) else NoteUp(t.note)]
      && r.looks[t.note] == (if down then PressedLook(t.note) else ReleasedLook(t.note))
      && (forall m :: m in w.looks && m != t.note ==> r.looks[m] == w.looks[m])
  {
    if w.readOnly then w
    else match t
      case Elsewhere => w
      case KeyRect(n) =>
        if down then SetNoteDown(w.(events := w.events + [NoteDown(n)]), n)
        else SetNoteUp(w.(events := w.events + [NoteUp(n)]), n)
  }

  /** A fresh drawing holds one key per note of the first `keyCount` notes,
      each at rest, with the fill its rect was drawn with. */
  lemma ConfigureLooks(w: Widget, keyCount: nat, start: Pitch, readOnly: bool)
    ensures var r := Configure(w, keyCount, start, readOnly);
            && r.looks.Keys == (set n | n in Take(start, keyCount))
            && (forall n :: n in r.looks ==> r.looks[n] == Look(RestFill(n), Untransformed))
            && (forall k :: k in NoteSvg(keyCount, start).keys ==> r.looks[RectTone(k)].fill == k.fill)
            && WidgetValid(r)
  {
    var r := Configure(w, keyCount, start, readOnly);
    var ps := Positions(Take(start, keyCount));
    NoteSvgKeys(keyCount, start);
    forall k | k in NoteSvg(keyCount, start).keys
      ensures r.looks[RectTone(k)] == Look(k.fill, Untransformed) && k.fill == RestFill(RectTone(k))
    {
      var j := RenderedFrom(ps, k);
    }
  }

  /** Pressing then releasing a key at rest brings back its fill, leaves it
      unsquashed, and touches no other key; the press is forgotten entirely. */
  lemma DownThenUp(w: Widget, n: Note)
    requires WidgetValid(w) && n in w.looks && !Pressed(w, n)
    ensures var r := SetNoteUp(SetNoteDown(w, n), n);
            && r.looks[n].fill == w.looks[n].fill && !Pressed(r, n)
            && (forall m :: m in w.looks && m != n ==> r.looks[m] == w.looks[m])
            && r.events == w.events && r.readOnly == w.readOnly
            && r == SetNoteUp(w, n)
  {
  }

  /** Clicks keep every key in one of its three looks. */
  lemma ClickKeepsValid(w: Widget, t: Target, down: bool)
    requires WidgetValid(w) && Hits(w, t)
    ensures WidgetValid(HandleClick(w, t, down))
  {
  }

  /** Every click hits a drawn key or nothing. */
  predicate AllHit(w: Widget, clicks: seq<Click>)
  {
    forall i :: 0 <= i < |clicks| ==> Hits(w, clicks[i].target)
  }

  /** A sequence of clicks, handled in order. */
  function Replay(w: Widget, clicks: seq<Click>): (r: Widget)
    requires AllHit(w, clicks)
    ensures r.looks.Keys == w.looks.Keys && r.readOnly == w.readOnly
    decreases |clicks|
  {
    if clicks == [] then w
    else Replay(HandleClick(w, clicks[0].target, clicks[0].down), clicks[1..])
  }

  /** The events a sequence of clicks should dispatch: one per click on a key. */
  function Emitted(clicks: seq<Click>): seq<Event>
  {
    if clicks == [] then []
    else
      var c := clicks[|clicks| - 1];
      Emitted(clicks[..|clicks| - 1])
        + match c.target
          case Elsewhere => []
          case KeyRect(n) => [if c.down then NoteDown(n) else NoteUp(n)]
  }

  /** Whether the last click on key n pressed it (`Some(true)`), released it
      (`Some(false)`), or there was none. */
  function LastClick(clicks: seq<Click>, n: Note): Option<bool>
  {
    if clicks == [] then None
    else if clicks[|clicks| - 1].target == KeyRect(n) then Some(clicks[|clicks| - 1].down)
    else LastClick(clicks[..|clicks| - 1], n)
  }

  lemma {:induction false} ReplaySnoc(w: Widget, clicks: seq<Click>, c: Click)
    requires AllHit(w, clicks + [c])
    ensures AllHit(w, clicks) && Hits(Replay(w, clicks), c.target)
    ensures Replay(w, clicks + [c]) == HandleClick(Replay(w, clicks), c.target, c.down)
    decreases |clicks|
  {
    assert forall i :: 0 <= i < |clicks| ==> clicks[i] == (clicks + [c])[i];
    assert (clicks + [c])[|clicks|] == c;
    if clicks != [] {
      var w' := HandleClick(w, clicks[0].target, clicks[0].down);
      assert (clicks + [c])[1..] == clicks[1..] + [c];
      assert AllHit(w', clicks[1..] + [c]) by {
        forall i | 0 <= i < |clicks[1..] + [c]|
          ensures Hits(w', (clicks[1..] + [c])[i].target)
        {
          assert (clicks[1..] + [c])[i] == (clicks + [c])[i + 1];
        }
      }
      ReplaySnoc(w', clicks[1..], c);
    }
  }

  /** A read-only widget ignores any sequence of clicks; an editable one
      dispatches exactly one event per click on a key, in click order. */
  lemma {:induction false} ReplayEvents(w: Widget, clicks: seq<Click>)
    requires AllHit(w, clicks)
    ensures w.readOnly ==> Replay(w, clicks) == w
    ensures !w.readOnly ==> Replay(w, clicks).events == w.events + Emitted(clicks)
    decreases |clicks|
  {
    if clicks != [] {
      var init, c := clicks[..|clicks| - 1], clicks[|clicks| - 1];
      assert clicks == init + [c];
      ReplaySnoc(w, init, c);
      ReplayEvents(w, init);
    }
  }

  /** A `note-down` listener that releases the same key: `handleClick` for the
      press dispatches first, the listener runs the whole release, and only
      then does the press set the key. Both events are logged in order, yet
      the key ends pressed, unlike the same two clicks handled one after
      another. */
  lemma NestedRelease(w: Widget, n: Note)
    requires !w.readOnly && n in w.looks
    ensures var dispatched := w.(events := w.events + [NoteDown(n)]);
            var r := SetNoteDown(HandleClick(dispatched, KeyRect(n), false), n);
            && r.events == w.events + [NoteDown(n), NoteUp(n)]
            && r.looks[n] == PressedLook(n)
            && r.events == Replay(w, [Click(KeyRect(n), true), Click(KeyRect(n), false)]).events
            && r.looks[n] != Replay(w, [Click(KeyRect(n), true), Click(KeyRect(n), false)]).looks[n]
  {
    var clicks := [Click(KeyRect(n), true), Click(KeyRect(n), false)];
    var w1 := HandleClick(w, KeyRect(n), true);
    var w2 := HandleClick(w1, KeyRect(n), false);
    assert clicks[1..] == [Click(KeyRect(n), false)] && clicks[1..][1..] == [];
    assert Replay(w1, clicks[1..]) == Replay(w2, []) == w2;
    assert Replay(w, clicks) == w2;
  }

  /** After a sequence of clicks on an editable widget, each key looks as the
      last click on it left it, or as before when it was not clicked. */
  lemma {:induction false} ReplayLook(w: Widget, clicks: seq<Click>, n: Note)
    requires AllHit(w, clicks) && !w.readOnly && n in w.looks
    ensures Replay(w, clicks).looks[n] == match LastClick(clicks, n)
      case None => w.looks[n]
      case Some(down) => if down then PressedLook(n) else ReleasedLook(n)
    decreases |clicks|
  {
    if clicks != [] {
      var init, c := clicks[..|clicks| - 1], clicks[|clicks| - 1];
      assert clicks == init + [c];
      ReplaySnoc(w, init, c);
      ReplayLook(w, init, n);
    }
  }
}

=== FILE: keyboard.dfy ===
/**
 The keyboard drawing of the piano-keys widget (src/piano.ts, `getNoteSvg` and
 `getKeysForNotes`).

 The widget takes the first `keycount` notes of the sequencer and places them
 left to right: a cursor starts one key width to the left of the picture, every
 natural moves it one key width to the right and sits at the new cursor, and
 every sharp sits 7 units right of the cursor without moving it. The drawing
 lists all naturals first and all sharps after them, so that the sharps are
 painted over the naturals. Here the SVG text is replaced by the values it is
 built from: a `Rect` per key and an `Svg` holding the view-box width.
 */
module Keyboard {
  import opened NoteGenerator

  /** Width of a natural key. */
  const KeyWidth: int := 10
  /** Width of a sharp key. */
  const SharpWidth: int := 6
  /** How far right of the last natural's cursor a sharp is drawn. */
  const SharpInset: int := 7
  /** Height of the view box. */
  const ViewHeight: int := 52

  /** The colours the widget paints keys with; `Charcoal` is "#555555". */
  datatype Colour = White | Grey | Charcoal

  /** A note with its horizontal position, the source's `NotePosition`. */
  datatype Position = Position(name: Pitch, octave: nat, offset: int)

  /** The attributes of one `<rect>` of the drawing. */
  datatype Rect = Rect(sharp: bool, note: Pitch, octave: nat, x: int, y: int,
                       stroke: Colour, fill: Colour, width: int, height: int)

  /** The note a position or a rect stands for. */
  function Tone(p: Position): Note {
    Note(p.name, p.octave)
  }

  function RectTone(r: Rect): Note {
    Note(r.note, r.octave)
  }

  /** No two entries stand for the same note. */
  predicate Distinct(ps: seq<Position>) {
    forall i, j :: 0 <= i < j < |ps| ==> Tone(ps[i]) != Tone(ps[j])
  }

  /** The drawing: the view box is `0 0 viewWidth viewHeight`. */
  datatype Svg = Svg(viewWidth: int, viewHeight: int, keys: seq<Rect>)

  /** Number of naturals among `notes`, counted front to back. */
  function NaturalCount(notes: seq<Note>): (n: nat)
    ensures n <= |notes|
  {
    if notes == [] then 0
    else (if IsSharp(notes[0].name) then 0 else 1) + NaturalCount(notes[1..])
  }

  /** The offsets `getKeysForNotes` computes, continuing from cursor `c`. */
  function Place(notes: seq<Note>, c: int): (ps: seq<Position>)
    ensures |ps| == |notes|
  {
    if notes == [] then []
    else if IsSharp(notes[0].name) then
      [Position(notes[0].name, notes[0].octave, c + SharpInset)] + Place(notes[1..], c)
    else
      [Position(notes[0].name, notes[0].octave, c + KeyWidth)] + Place(notes[1..], c + KeyWidth)
  }

  /** Placing keeps every note, in order: position i stands for note i. */
  lemma {:induction false} PlaceKeepsNotes(notes: seq<Note>, c: int)
    ensures forall i :: 0 <= i < |notes| ==> Tone(Place(notes, c)[i]) == notes[i]
    decreases |notes|
  {
    if notes != [] {
      var d := if IsSharp(notes[0].name) then 0 else KeyWidth;
      PlaceKeepsNotes(notes[1..], c + d);
    }
  }

  /** The positions of `notes`, with the cursor starting at `-KeyWidth + 1`:
      one per note, in order, the first at 1 when it is a natural and two units
      left of the view box when it is a sharp. */
  function Positions(notes: seq<Note>): (ps: seq<Position>)
    ensures |ps| == |notes|
    ensures forall i :: 0 <= i < |ps| ==> Tone(ps[i]) == notes[i]
    ensures |notes| > 0 ==> ps[0].offset == if IsSharp(notes[0].name) then -2 else 1
  {
    PlaceKeepsNotes(notes, -KeyWidth + 1);
    Place(notes, -KeyWidth + 1)
  }

  /** The positions of the given kind, in their original order. */
  function Select(ps: seq<Position>, sharp: bool): (r: seq<Position>)
    ensures forall i :: 0 <= i < |r| ==> IsSharp(r[i].name) == sharp
    ensures |r| <= |ps|
  {
    if ps == [] then []
    else if IsSharp(ps[0].name) == sharp then [ps[0]] + Select(ps[1..], sharp)
    else Select(ps[1..], sharp)
  }

  /** Naturals first, sharps after: a reordering of the positions. */
  function Arrange(ps: seq<Position>): (r: seq<Position>)
    ensures |r| == |ps| && multiset(r) == multiset(ps)
  {
    SelectPartition(ps);
    Select(ps, false) + Select(ps, true)
  }

  /** `normalKey`: a white key, 10 wide and 50 high. */
  function NormalKey(p: Position): (r: Rect)
    ensures !r.sharp && r.fill == White && r.width == KeyWidth
    ensures r.y == 1 && r.height == 50
  {
    Rect(false, p.name, p.octave, p.offset, 1, Charcoal, White, KeyWidth, 50)
  }

  /** `sharpKey`: a charcoal key, 6 wide and 30 high. */
  function SharpKey(p: Position): (r: Rect)
    ensures r.sharp && r.fill == Charcoal && r.width == SharpWidth
    ensures r.y == 1 && r.height == 30
  {
    Rect(true, p.name, p.octave, p.offset, 1, Charcoal, Charcoal, SharpWidth, 30)
  }

  function RenderKey(p: Position): (r: Rect)
    ensures r.note == p.name && r.octave == p.octave && r.x == p.offset
    ensures r.sharp == IsSharp(p.name)
  {
    if IsSharp(p.name) then SharpKey(p) else NormalKey(p)
  }

  function Render(ps: seq<Position>): seq<Rect>
  {
    seq(|ps|, i requires 0 <= i < |ps| => RenderKey(ps[i]))
  }

  /** The single `RenderKey` dispatch over the arranged positions draws what
      the source's two pipelines draw: the naturals filtered and drawn with
      `normalKey`, then the sharps filtered and drawn with `sharpKey`. */
  lemma KeysAsSource(ps: seq<Position>)
    ensures var n, s := Select(ps, false), Select(ps, true);
            Render(Arrange(ps))
            == seq(|n|, i requires 0 <= i < |n| => NormalKey(n[i]))
             + seq(|s|, i requires 0 <= i < |s| => SharpKey(s[i]))
  {
    SelectPartition(ps);
  }

  /** `getKeysForNotes`: the rects of the naturals, then those of the sharps.
      There is one rect per note, and exactly the first `NaturalCount` of
      them are drawn as naturals. */
  function KeysForNotes(notes: seq<Note>): (r: seq<Rect>)
    ensures |r| == |notes|
    ensures forall i :: 0 <= i < |r| ==> (r[i].sharp <==> i >= NaturalCount(notes))
  {
    ArrangeOrder(Positions(notes));
    PlaceNaturals(notes, -KeyWidth + 1);
    Render(Arrange(Positions(notes)))
  }

  /** `totalWidth`: one key width per natural key laid out, plus one sharp
      width. */
  function TotalWidth(notes: seq<Note>): (w: int)
    ensures w == KeyWidth * |Select(Positions(notes), false)| + SharpWidth
    ensures SharpWidth <= w <= KeyWidth * |notes| + SharpWidth
  {
    PlaceNaturals(notes, -KeyWidth + 1);
    NaturalCount(notes) * KeyWidth + SharpWidth
  }

  /** `getNoteSvg`: the drawing of the first `keyCount` notes from `start`.
      It has one rect per note, and every rect lies within the view box's
      height whatever the start pitch. */
  function NoteSvg(keyCount: nat, start: Pitch): (svg: Svg)
    ensures svg.viewHeight == ViewHeight && |svg.keys| == keyCount
    ensures forall k :: k in svg.keys ==> 0 <= k.y && k.y + k.height <= svg.viewHeight
  {
    var notes := Take(start, keyCount);
    Svg(TotalWidth(notes), ViewHeight, KeysForNotes(notes))
  }

  /** The five sharps are exactly the pitches whose name has a '#', so
      `IsSharp` is the source's `name.includes("#")`. */
  lemma SharpPitches(p: Pitch)
    ensures IsSharp(p) <==> '#' in Name(p)
  {
    match p
    case A => assert Name(p)[0] != '#';
    case B => assert Name(p)[0] != '#';
    case C => assert Name(p)[0] != '#';
    case D => assert Name(p)[0] != '#';
    case E => assert Name(p)[0] != '#';
    case F => assert Name(p)[0] != '#';
    case G => assert Name(p)[0] != '#';
    case _ => assert Name(p)[1] == '#';
  }

  /** Counting naturals over a concatenation. */
  lemma {:induction false} NaturalCountAppend(a: seq<Note>, b: seq<Note>)
    ensures NaturalCount(a + b) == NaturalCount(a) + NaturalCount(b)
  {
    if a == [] {
      assert a + b == b;
    } else {
      assert (a + b)[0] == a[0] && (a + b)[1..] == a[1..] + b;
      NaturalCountAppend(a[1..], b);
    }
  }

  /** Extending a prefix by one note adds one exactly when that note is a natural. */
  lemma NaturalCountStep(notes: seq<Note>, i: nat)
    requires i < |notes|
    ensures NaturalCount(notes[..i + 1]) == NaturalCount(notes[..i]) + (if IsSharp(notes[i].name) then 0 else 1)
  {
    assert notes[..i + 1] == notes[..i] + [notes[i]];
    NaturalCountAppend(notes[..i], [notes[i]]);
  }

  /** The naturals before index i never outnumber those of the whole list,
      and a natural at i is one of them. */
  lemma NaturalCountPrefix(notes: seq<Note>, i: nat)
    requires i < |notes|
    ensures NaturalCount(notes[..i]) + (if IsSharp(notes[i].name) then 0 else 1) <= NaturalCount(notes)
  {
    var front, back := notes[..i], notes[i..];
    assert front + back == notes;
    NaturalCountAppend(front, back);
    assert back[0] == notes[i];
  }

  /** Placing from the second note on continues from the cursor the first
      note left. */
  lemma PlaceTail(notes: seq<Note>, c: int, i: nat)
    requires 0 < i < |notes|
    ensures Place(notes, c)[i] == Place(notes[1..], c + (if IsSharp(notes[0].name) then 0 else KeyWidth))[i - 1]
  {
  }

  /** Counting the naturals of a prefix from its first note on. */
  lemma CountTail(notes: seq<Note>, i: nat)
    requires 0 < i <= |notes|
    ensures NaturalCount(notes[..i]) == (if IsSharp(notes[0].name) then 0 else 1) + NaturalCount(notes[1..][..i - 1])
  {
    assert notes[..i][0] == notes[0];
    assert notes[..i][1..] == notes[1..][..i - 1];
  }

  /** Offset of note i when placing from cursor c: the cursor has moved one
      key width per natural before i. */
  lemma {:induction false} PlaceOffset(notes: seq<Note>, c: int, i: nat)
    requires i < |notes|
    ensures Place(notes, c)[i].offset
         == c + 10 * NaturalCount(notes[..i]) + (if IsSharp(notes[i].name) then SharpInset else KeyWidth)
    decreases i
  {
    if i > 0 {
      var d := if IsSharp(notes[0].name) then 0 else KeyWidth;
      var rest := notes[1..];
      PlaceOffset(rest, c + d, i - 1);
      PlaceTail(notes, c, i);
      CountTail(notes, i);
      assert rest[i - 1] == notes[i];
    }
  }

  /** The offset of every key: with k naturals before it, a natural sits at
      1 + 10k and a sharp at 10k - 2. */
  lemma KeyOffset(notes: seq<Note>, i: nat)
    requires i < |notes|
    ensures var k := NaturalCount(notes[..i]);
            Positions(notes)[i].offset == if IsSharp(notes[i].name) then 10 * k - 2 else 10 * k + 1
  {
    PlaceOffset(notes, -KeyWidth + 1, i);
  }

  /** A run of sharps does not move the cursor. */
  lemma {:induction false} SharpRun(notes: seq<Note>, j: nat, i: nat)
    requires j <= i <= |notes|
    requires forall m :: j <= m < i ==> IsSharp(notes[m].name)
    ensures NaturalCount(notes[..i]) == NaturalCount(notes[..j])
    decreases i - j
  {
    if j < i {
      SharpRun(notes, j, i - 1);
      NaturalCountStep(notes, i - 1);
    }
  }

  /** A sharp is drawn 7 units right of the natural that last precedes it. */
  lemma SharpAfterNatural(notes: seq<Note>, j: nat, i: nat)
    requires j < i < |notes|
    requires !IsSharp(notes[j].name) && IsSharp(notes[i].name)
    requires forall m :: j < m < i ==> IsSharp(notes[m].name)
    ensures Positions(notes)[i].offset == Positions(notes)[j].offset + SharpInset
  {
    KeyOffset(notes, i);
    KeyOffset(notes, j);
    NaturalCountStep(notes, j);
    SharpRun(notes, j + 1, i);
  }

  /** The naturals, in order, step right by one key width each, starting one
      unit inside the view box when placed from cursor c = -9. */
  lemma {:induction false} PlaceNaturals(notes: seq<Note>, c: int)
    ensures |Select(Place(notes, c), false)| == NaturalCount(notes)
    ensures forall k :: 0 <= k < NaturalCount(notes) ==> Select(Place(notes, c), false)[k].offset == c + 10 * (k + 1)
    decreases |notes|
  {
    if notes != [] {
      var ps := Place(notes, c);
      var d := if IsSharp(notes[0].name) then 0 else KeyWidth;
      var rest := Place(notes[1..], c + d);
      assert ps[0].name == notes[0].name && ps[1..] == rest;
      PlaceNaturals(notes[1..], c + d);
    }
  }

  /** The k-th natural key sits at 1 + 10k, so naturals are laid left to
      right, each exactly one key width after the previous one. */
  lemma NaturalOffsets(notes: seq<Note>)
    ensures |Select(Positions(notes), false)| == NaturalCount(notes)
    ensures forall k :: 0 <= k < NaturalCount(notes) ==> Select(Positions(notes), false)[k].offset == 1 + 10 * k
    ensures forall k :: 0 <= k < NaturalCount(notes) - 1 ==>
      Select(Positions(notes), false)[k + 1].offset == Select(Positions(notes), false)[k].offset + KeyWidth
  {
    PlaceNaturals(notes, -KeyWidth + 1);
  }

  /** An element is selected exactly when it is in the list and of the kind asked for. */
  lemma {:induction false} SelectMembers(ps: seq<Position>, sharp: bool, x: Position)
    ensures x in Select(ps, sharp) <==> x in ps && IsSharp(x.name) == sharp
    decreases |ps|
  {
    if ps != [] {
      SelectMembers(ps[1..], sharp, x);
      assert ps == [ps[0]] + ps[1..];
    }
  }

  lemma {:induction false} SelectAppend(a: seq<Position>, b: seq<Position>, sharp: bool)
    ensures Select(a + b, sharp) == Select(a, sharp) + Select(b, sharp)
    decreases |a|
  {
    if a == [] {
      assert a + b == b;
    } else {
      assert (a + b)[0] == a[0] && (a + b)[1..] == a[1..] + b;
      SelectAppend(a[1..], b, sharp);
    }
  }

  /** Selecting from a list of one kind keeps all of it or nothing. */
  lemma {:induction false} SelectUniform(a: seq<Position>, sharp: bool)
    requires forall i :: 0 <= i < |a| ==> IsSharp(a[i].name) == sharp
    ensures Select(a, sharp) == a && Select(a, !sharp) == []
    decreases |a|
  {
    if a != [] {
      SelectUniform(a[1..], sharp);
    }
  }

  /** Naturals and sharps split the list: together they are a permutation of it. */
  lemma {:induction false} SelectPartition(ps: seq<Position>)
    ensures |Select(ps, false)| + |Select(ps, true)| == |ps|
    ensures multiset(Select(ps, false)) + multiset(Select(ps, true)) == multiset(ps)
    decreases |ps|
  {
    if ps != [] {
      SelectPartition(ps[1..]);
      assert ps == [ps[0]] + ps[1..];
    }
  }

  /** The arranged list is a permutation of the positions: all naturals in
      their original order, then all sharps in their original order. */
  lemma ArrangeOrder(ps: seq<Position>)
    ensures |Arrange(ps)| == |ps| && multiset(Arrange(ps)) == multiset(ps)
    ensures Select(Arrange(ps), false) == Select(ps, false)
    ensures Select(Arrange(ps), true) == Select(ps, true)
    ensures forall i :: 0 <= i < |ps| ==> (IsSharp(Arrange(ps)[i].name) <==> i >= |Select(ps, false)|)
  {
    var n, s := Select(ps, false), Select(ps, true);
    SelectPartition(ps);
    SelectAppend(n, s, false);
    SelectAppend(n, s, true);
    SelectUniform(n, false);
    SelectUniform(s, true);
  }

  /** With a natural first, key j lies inside the view box. */
  lemma PositionFits(notes: seq<Note>, j: nat)
    requires j < |notes| && !IsSharp(notes[0].name)
    ensures var p := Positions(notes)[j];
            0 <= p.offset && p.offset + RenderKey(p).width <= TotalWidth(notes)
  {
    KeyOffset(notes, j);
    NaturalCountPrefix(notes, j);
    if j > 0 {
      NaturalCountPrefix(notes[..j], 0);
      assert notes[..j][..0] == [] && notes[..j][0] == notes[0];
    }
  }

  /** Some position of `ps` is drawn as each rect of `Render(Arrange(ps))`. */
  lemma RenderedFrom(ps: seq<Position>, r: Rect) returns (j: nat)
    requires r in Render(Arrange(ps))
    ensures j < |ps| && r == RenderKey(ps[j])
  {
    var a := Arrange(ps);
    ArrangeOrder(ps);
    var i :| 0 <= i < |a| && Render(a)[i] == r;
    assert a[i] in multiset(ps);
    j :| 0 <= j < |ps| && ps[j] == a[i];
  }

  /** Each position of `ps` is drawn by some rect of `Render(Arrange(ps))`. */
  lemma RenderedAt(ps: seq<Position>, j: nat) returns (i: nat)
    requires j < |ps|
    ensures i < |Render(Arrange(ps))| && Render(Arrange(ps))[i] == RenderKey(ps[j])
  {
    var a := Arrange(ps);
    ArrangeOrder(ps);
    assert ps[j] in multiset(a);
    i :| 0 <= i < |a| && a[i] == ps[j];
  }

  /** When the first note is a natural, or there are none, every key lies
      inside the view box `[0, totalWidth]`. */
  lemma KeysWithinView(notes: seq<Note>)
    requires notes == [] || !IsSharp(notes[0].name)
    ensures forall r :: r in KeysForNotes(notes) ==> 0 <= r.x && r.x + r.width <= TotalWidth(notes)
  {
    forall r | r in KeysForNotes(notes)
      ensures 0 <= r.x && r.x + r.width <= TotalWidth(notes)
    {
      var j := RenderedFrom(Positions(notes), r);
      PositionFits(notes, j);
    }
  }

  /** The rects: one per note; the first `NaturalCount` are the naturals,
      at 1, 11, 21, ..., and the rest are the sharps. */
  lemma KeysLayout(notes: seq<Note>)
    ensures |KeysForNotes(notes)| == |notes|
    ensures forall i :: 0 <= i < |notes| ==> (KeysForNotes(notes)[i].sharp <==> i >= NaturalCount(notes))
    ensures forall i :: 0 <= i < NaturalCount(notes) ==> KeysForNotes(notes)[i].x == 1 + 10 * i
  {
    var ps := Positions(notes);
    ArrangeOrder(ps);
    NaturalOffsets(notes);
  }

  /** Selecting keeps distinct entries distinct. */
  lemma {:induction false} SelectDistinct(ps: seq<Position>, sharp: bool)
    requires Distinct(ps)
    ensures Distinct(Select(ps, sharp))
    decreases |ps|
  {
    if ps != [] {
      SelectDistinct(ps[1..], sharp);
      var rest := Select(ps[1..], sharp);
      forall k | 0 <= k < |rest|
        ensures Tone(rest[k]) != Tone(ps[0])
      {
        SelectMembers(ps[1..], sharp, rest[k]);
        var m :| 0 <= m < |ps[1..]| && ps[1..][m] == rest[k];
        assert ps[m + 1] == rest[k];
      }
    }
  }

  /** Arranging keeps distinct entries distinct: within a kind by
      `SelectDistinct`, across kinds because the names differ. */
  lemma ArrangeDistinct(ps: seq<Position>)
    requires Distinct(ps)
    ensures Distinct(Arrange(ps))
  {
    SelectDistinct(ps, false);
    SelectDistinct(ps, true);
    var n, s := Select(ps, false), Select(ps, true);
    forall i, j | 0 <= i < |n| && 0 <= j < |s|
      ensures Tone(n[i]) != Tone(s[j])
    {
    }
  }

  /** The notes the sequencer yields are pairwise different, and so are
      their positions. */
  lemma PositionsDistinct(start: Pitch, keyCount: nat)
    ensures Distinct(Positions(Take(start, keyCount)))
  {
    var notes := Take(start, keyCount);
    forall i, j | 0 <= i < j < keyCount
      ensures Tone(Positions(notes)[i]) != Tone(Positions(notes)[j])
    {
      NotesUnique(start, i, j);
    }
  }

  /** The rects stand for exactly the notes given. */
  lemma KeysNotes(notes: seq<Note>)
    ensures (set r | r in KeysForNotes(notes) :: RectTone(r)) == (set n | n in notes)
  {
    var ps := Positions(notes);
    var keys := KeysForNotes(notes);
    forall r | r in keys
      ensures RectTone(r) in notes
    {
      var j := RenderedFrom(ps, r);
      assert RectTone(r) == notes[j];
    }
    forall n | n in notes
      ensures n in (set r | r in keys :: RectTone(r))
    {
      var j :| 0 <= j < |notes| && notes[j] == n;
      var k := RenderedAt(ps, j);
      assert RectTone(keys[k]) == n;
    }
  }

  /** The drawing has exactly one rect per note of the first `keyCount`
      notes: as many rects as notes, the same notes, and no note twice. */
  lemma NoteSvgKeys(keyCount: nat, start: Pitch)
    ensures |NoteSvg(keyCount, start).keys| == keyCount
    ensures (set r | r in NoteSvg(keyCount, start).keys :: RectTone(r)) == (set n | n in Take(start, keyCount))
    ensures forall i, j :: 0 <= i < j < |NoteSvg(keyCount, start).keys| ==>
      RectTone(NoteSvg(keyCount, start).keys[i]) != RectTone(NoteSvg(keyCount, start).keys[j])
  {
    var notes := Take(start, keyCount);
    var ps := Positions(notes);
    ArrangeOrder(ps);
    KeysNotes(notes);
    PositionsDistinct(start, keyCount);
    ArrangeDistinct(ps);
  }

  /** When the start pitch is a natural (as for the "AtoG" and "CtoB" layouts
      the tests use), the whole drawing fits in its view box. */
  lemma NoteSvgFits(keyCount: nat, start: Pitch)
    requires keyCount == 0 || !IsSharp(start)
    ensures forall r :: r in NoteSvg(keyCount, start).keys ==>
      0 <= r.x && r.x + r.width <= NoteSvg(keyCount, start).viewWidth
    ensures forall r :: r in NoteSvg(keyCount, start).keys ==>
      0 <= r.y && r.y + r.height <= NoteSvg(keyCount, start).viewHeight
  {
    var notes := Take(start, keyCount);
    if keyCount > 0 {
      FirstNote(start);
    }
    KeysWithinView(notes);
  }

  /** The view-box width counts the natural rects: the first
      `(viewWidth - 6) / 10` rects are the naturals, at 1, 11, 21, ..., and
      the rest are sharps. */
  lemma NoteSvgWidth(keyCount: nat, start: Pitch)
    ensures var svg := NoteSvg(keyCount, start);
            var n := (svg.viewWidth - SharpWidth) / KeyWidth;
            && svg.viewHeight == ViewHeight
            && n <= |svg.keys|
            && (forall i :: 0 <= i < |svg.keys| ==> (!svg.keys[i].sharp <==> i < n))
            && (forall i :: 0 <= i < n ==> svg.keys[i].x == 1 + 10 * i)
  {
    KeysLayout(Take(start, keyCount));
  }
}

=== FILE: note_generator.dfy ===
/**
 The note sequencer of the piano-keys widget (src/note-generator.ts).

 The source is a JavaScript generator: it rotates the twelve chromatic names so
 that they start at the requested pitch, walks the rotated list forever, and
 keeps an octave counter that goes up at every "C" except the very first note.
 Here the suspended generator is a plain record and one call of `next()` is the
 pure function `Next`; `NoteAt(start, i)` is the note the (i+1)-th call yields.

 The source passes pitch names around as strings; here they are the twelve
 constructors of `Pitch`, and `Name` gives the string the source uses. A start
 pitch outside the twelve names cannot be written down.
 */
module NoteGenerator {

  /** The twelve pitch classes. */
  datatype Pitch = A | ASharp | B | C | CSharp | D | DSharp | E | F | FSharp | G | GSharp

  /** The string the source uses for a pitch. */
  function Name(p: Pitch): string {
    match p
    case A => "A"
    case ASharp => "A#"
    case B => "B"
    case C => "C"
    case CSharp => "C#"
    case D => "D"
    case DSharp => "D#"
    case E => "E"
    case F => "F"
    case FSharp => "F#"
    case G => "G"
    case GSharp => "G#"
  }

  /** The twelve pitch names in the order the source lists them. */
  const Notes: seq<Pitch> := [A, ASharp, B, C, CSharp, D, DSharp, E, F, FSharp, G, GSharp]

  /** Position of "C" in `Notes`. */
  const CIndex: nat := 3

  /** A note as the generator yields it. */
  datatype Note = Note(name: Pitch, octave: nat)

  /** The source's `name.includes("#")`, decided by the pitch itself;
      `Keyboard.SharpPitches` shows it holds exactly when the name has a '#'. */
  predicate IsSharp(p: Pitch) {
    p.ASharp? || p.CSharp? || p.DSharp? || p.FSharp? || p.GSharp?
  }

  lemma NotesFacts()
    ensures |Notes| == 12
    ensures forall i, j :: 0 <= i < j < |Notes| ==> Notes[i] != Notes[j]
    ensures forall p: Pitch :: p in Notes
    ensures Notes[CIndex] == C
  {
    forall p: Pitch
      ensures p in Notes
    {
      match p
      case A => assert Notes[0] == p;
      case ASharp => assert Notes[1] == p;
      case B => assert Notes[2] == p;
      case C => assert Notes[3] == p;
      case CSharp => assert Notes[4] == p;
      case D => assert Notes[5] == p;
      case DSharp => assert Notes[6] == p;
      case E => assert Notes[7] == p;
      case F => assert Notes[8] == p;
      case FSharp => assert Notes[9] == p;
      case G => assert Notes[10] == p;
      case GSharp => assert Notes[11] == p;
    }
  }

  /** `Array.prototype.indexOf` on a sequence that holds the element. */
  function IndexOf(xs: seq<Pitch>, x: Pitch): (i: nat)
    requires x in xs
    ensures i < |xs| && xs[i] == x
    ensures forall j :: 0 <= j < i ==> xs[j] != x
  {
    if xs[0] == x then 0
    else
      assert x in xs[1..] by {
        var k :| 0 <= k < |xs| && xs[k] == x;
        assert xs[1..][k - 1] == x;
      }
      1 + IndexOf(xs[1..], x)
  }

  /** `pivot`: where the start pitch sits in `Notes`. */
  function Pivot(start: Pitch): (p: nat)
    ensures p < 12 && Notes[p] == start
  {
    match start
    case A => 0
    case ASharp => 1
    case B => 2
    case C => 3
    case CSharp => 4
    case D => 5
    case DSharp => 6
    case E => 7
    case F => 8
    case FSharp => 9
    case G => 10
    case GSharp => 11
  }

  /** The pivot is what `Notes.indexOf(startNote)` returns. */
  lemma PivotIsIndexOf(start: Pitch)
    ensures start in Notes && Pivot(start) == IndexOf(Notes, start)
  {
    NotesFacts();
    var i := IndexOf(Notes, start);
    assert Notes[i] == start;
    assert Notes[Pivot(start)] == start;
  }

  /** `Notes` rotated to begin at index `p`. */
  function Rotate(p: nat): (l: seq<Pitch>)
    requires p < 12
    ensures |l| == 12 && l[0] == Notes[p]
  {
    Notes[p..] + Notes[..p]
  }

  /** The k-th entry of the rotation is k places after `p`, cyclically. */
  lemma RotateAt(p: nat, k: nat)
    requires p < 12 && k < 12
    ensures Rotate(p)[k] == Notes[(p + k) % 12]
  {
    if k < 12 - p {
      assert (p + k) % 12 == p + k;
    } else {
      assert (p + k) % 12 == p + k - 12;
    }
  }

  /** `layout`: `Notes` rotated so that it begins at the start pitch. */
  function Layout(start: Pitch): (l: seq<Pitch>)
    ensures |l| == 12 && l[0] == start
  {
    Rotate(Pivot(start))
  }

  /** A generator between two `next()` calls: its rotated list, the index and
      `first` flag the next resumption will use (the source steps its inner
      `for` index and clears `first` on resuming; here that is done before
      suspending, which yields the same notes), and the octave counter. */
  datatype Generator = Generator(layout: seq<Pitch>, pos: nat, octave: nat, first: bool)

  predicate GeneratorValid(g: Generator) {
    |g.layout| == 12 && g.pos < |g.layout|
  }

  /** The generator before its first `next()`. */
  function Start(start: Pitch): (g: Generator)
    ensures GeneratorValid(g)
  {
    Generator(Layout(start), 0, 0, true)
  }

  /** One `next()`: bump the octave on a "C" unless it is the first note,
      yield, clear `first`, and step the inner loop (restarting it at the end of
      the list, which is what the enclosing `while (true)` does). */
  function Next(g: Generator): (r: (Note, Generator))
    requires GeneratorValid(g)
    ensures GeneratorValid(r.1) && r.1.layout == g.layout && !r.1.first
    ensures r.0.name == g.layout[g.pos] && r.1.octave == r.0.octave
    ensures r.0.octave == g.octave || (r.0.octave == g.octave + 1 && r.0.name == C)
  {
    var name := g.layout[g.pos];
    var octave := if name == C && !g.first then g.octave + 1 else g.octave;
    (Note(name, octave), Generator(g.layout, (g.pos + 1) % 12, octave, false))
  }

  /** The generator after `n` calls of `next()`. */
  function Advance(g: Generator, n: nat): (r: Generator)
    requires GeneratorValid(g)
    ensures GeneratorValid(r) && r.layout == g.layout
    decreases n
  {
    if n == 0 then g else Advance(Next(g).1, n - 1)
  }

  /** The `i`-th note (0-based) of the sequence started at `start`. */
  function NoteAt(start: Pitch, i: nat): (n: Note)
    ensures n.name == Layout(start)[i % 12]
  {
    YieldedEntry(start, i);
    Next(Advance(Start(start), i)).0
  }

  /** The first `n` values pulled from a generator, as `getNoteSvg` does with
      `new Array(n).fill(1).map(() => generator.next().value)`. */
  function Pull(g: Generator, n: nat): (notes: seq<Note>)
    requires GeneratorValid(g)
    ensures |notes| == n
    ensures forall i :: 0 <= i < n ==> notes[i] == Next(Advance(g, i)).0
    decreases n
  {
    if n == 0 then [] else [Next(g).0] + Pull(Next(g).1, n - 1)
  }

  /** The first `n` notes of a fresh sequencer started at `start`. */
  function Take(start: Pitch, n: nat): (notes: seq<Note>)
    ensures |notes| == n
    ensures forall i :: 0 <= i < n ==> notes[i] == NoteAt(start, i)
  {
    Pull(Start(start), n)
  }

  /** Whether an entry of `Notes` is "C" is decided by its index alone. */
  lemma IsCAt(k: nat)
    requires k < 12
    ensures Notes[k] == C <==> k == CIndex
  {
    NotesFacts();
  }

  /** The first index after 0 at which a walk started at `Notes[p]` lands on "C". */
  function FirstC(p: nat): (f: nat)
    requires p < 12
    ensures 1 <= f <= 12
    ensures (p + f) % 12 == CIndex
  {
    if p < 3 then 3 - p else 15 - p
  }

  /** Reference octave, in closed form: 0 up to the first "C" after the start,
      then one more every twelve notes. */
  function OctaveFormula(p: nat, i: nat): nat
    requires p < 12
  {
    (i + 12 - FirstC(p)) / 12
  }

  lemma FormulaStep(p: nat, i: nat)
    requires p < 12 && i >= 1
    ensures OctaveFormula(p, i) == OctaveFormula(p, i - 1) + (if (p + i) % 12 == CIndex then 1 else 0)
  {
    var x := i + 12 - FirstC(p);
    assert x >= 1;
    assert (p + i) % 12 == CIndex <==> x % 12 == 0 by {
      if p < CIndex {
        assert x == i + 9 + p;
      } else {
        assert x == i - 3 + p;
      }
    }
    assert x / 12 == (x - 1) / 12 + (if x % 12 == 0 then 1 else 0);
  }

  lemma ModAdd(p: nat, i: nat)
    ensures (p + i % 12) % 12 == (p + i) % 12
  {
  }

  /** A generator that has not yet been resumed. */
  predicate Unstarted(g: Generator) {
    GeneratorValid(g) && g.pos == 0 && g.octave == 0 && g.first
  }

  /** `layout` holds "C" exactly where `Notes` rotated by `p` does. */
  predicate CsLike(layout: seq<Pitch>, p: nat) {
    |layout| == 12 && forall k :: 0 <= k < 12 ==> (layout[k] == C <==> (p + k) % 12 == CIndex)
  }

  lemma StartFacts(start: Pitch)
    ensures Unstarted(Start(start))
    ensures Start(start).layout == Rotate(Pivot(start))
    ensures CsLike(Start(start).layout, Pivot(start))
  {
    var p := Pivot(start);
    forall k | 0 <= k < 12
      ensures Rotate(p)[k] == C <==> (p + k) % 12 == CIndex
    {
      RotateAt(p, k);
      IsCAt((p + k) % 12);
    }
  }

  lemma {:induction false} AdvanceSplit(g: Generator, n: nat)
    requires GeneratorValid(g)
    ensures Advance(g, n + 1) == Next(Advance(g, n)).1
    decreases n
  {
    if n > 0 {
      AdvanceSplit(Next(g).1, n - 1);
    }
  }

  lemma ModSucc(a: nat, i: nat)
    requires i >= 1
    ensures ((a + (i - 1)) % 12 + 1) % 12 == (a + i) % 12
  {
  }

  lemma {:induction false} AdvancePos(g: Generator, i: nat)
    requires GeneratorValid(g)
    ensures Advance(g, i).pos == (g.pos + i) % 12
    ensures Advance(g, i).first == (g.first && i == 0)
  {
    if i > 0 {
      AdvancePos(g, i - 1);
      AdvanceSplit(g, i - 1);
      ModSucc(g.pos, i);
    }
  }

  /** After `i` yields the generator sits on entry `i % 12` of its list. */
  lemma YieldedEntry(start: Pitch, i: nat)
    ensures Advance(Start(start), i).layout[Advance(Start(start), i).pos] == Layout(start)[i % 12]
  {
    AdvancePos(Start(start), i);
  }

  /** The pitch a fresh generator sits on after `i` yields. */
  lemma CurrentPitch(g: Generator, p: nat, i: nat)
    requires Unstarted(g) && p < 12 && g.layout == Rotate(p)
    ensures Advance(g, i).layout[Advance(g, i).pos] == Notes[(p + i) % 12]
  {
    AdvancePos(g, i);
    var h, k := Advance(g, i), i % 12;
    assert h.pos == k && h.layout == Rotate(p);
    RotateAt(p, k);
    ModAdd(p, i);
    assert (p + k) % 12 == (p + i) % 12;
  }

  /** Whether a fresh generator sits on "C" after `i` yields. */
  lemma CurrentIsC(g: Generator, p: nat, i: nat)
    requires Unstarted(g) && p < 12 && CsLike(g.layout, p)
    ensures Advance(g, i).layout[Advance(g, i).pos] == C <==> (p + i) % 12 == CIndex
  {
    AdvancePos(g, i);
    var k := i % 12;
    assert g.layout[k] == C <==> (p + k) % 12 == CIndex;
    ModAdd(p, i);
  }

  /** Two consecutive yields after the first: the octave goes up by one
      exactly when the later note is "C". */
  lemma YieldStep(g: Generator, i: nat)
    requires GeneratorValid(g)
    ensures Next(Advance(g, i + 1)).0.octave
         == Next(Advance(g, i)).0.octave + (if Next(Advance(g, i + 1)).0.name == C then 1 else 0)
  {
    AdvanceSplit(g, i);
    AdvancePos(g, i + 1);
  }

  lemma {:induction false} YieldMonotone(g: Generator, i: nat, j: nat)
    requires GeneratorValid(g) && i <= j
    ensures Next(Advance(g, i)).0.octave <= Next(Advance(g, j)).0.octave
    decreases j - i
  {
    if i < j {
      YieldMonotone(g, i, j - 1);
      YieldStep(g, j - 1);
    }
  }

  /** The octave of the i-th yield of a fresh generator, in closed form. */
  lemma {:induction false} YieldOctave(g: Generator, p: nat, i: nat)
    requires Unstarted(g) && p < 12 && CsLike(g.layout, p)
    ensures Next(Advance(g, i)).0.octave == OctaveFormula(p, i)
  {
    if i == 0 {
      assert OctaveFormula(p, 0) == 0;
    } else {
      YieldOctave(g, p, i - 1);
      YieldStep(g, i - 1);
      CurrentIsC(g, p, i);
      FormulaStep(p, i);
    }
  }

  /** The name of the i-th note: `Notes[(pivot + i) % 12]`. */
  lemma NoteName(start: Pitch, i: nat)
    ensures NoteAt(start, i).name == Notes[(Pivot(start) + i) % 12]
  {
    StartFacts(start);
    CurrentPitch(Start(start), Pivot(start), i);
  }

  /** The first note is the start pitch in octave 0, even when it is "C". */
  lemma FirstNote(start: Pitch)
    ensures NoteAt(start, 0) == Note(start, 0)
  {
  }

  /** The octave goes up by one exactly when the next note is "C". */
  lemma OctaveStep(start: Pitch, i: nat)
    ensures NoteAt(start, i + 1).octave
         == NoteAt(start, i).octave + (if NoteAt(start, i + 1).name == C then 1 else 0)
  {
    YieldStep(Start(start), i);
  }

  /** Octaves never go down. */
  lemma OctaveMonotone(start: Pitch, i: nat, j: nat)
    requires i <= j
    ensures NoteAt(start, i).octave <= NoteAt(start, j).octave
  {
    YieldMonotone(Start(start), i, j);
  }

  /** The octave of the i-th note, in closed form: 0 up to the first "C" after
      the start, then one more every twelve notes. */
  lemma NoteOctave(start: Pitch, i: nat)
    ensures NoteAt(start, i).octave == OctaveFormula(Pivot(start), i)
  {
    StartFacts(start);
    YieldOctave(Start(start), Pivot(start), i);
  }

  /** Note i of a walk that starts at `Notes[p]`, in closed form. */
  function NoteFrom(p: nat, i: nat): Note
    requires p < 12
  {
    Note(Notes[(p + i) % 12], OctaveFormula(p, i))
  }

  /** The i-th note in closed form. */
  lemma NoteAtClosedForm(start: Pitch, i: nat)
    ensures NoteAt(start, i) == NoteFrom(Pivot(start), i)
  {
    NoteName(start, i);
    NoteOctave(start, i);
  }

  /** Reference octave, by counting: the number of yields j with 1 <= j <= i
      of a generator that are named "C". */
  function CsYielded(g: Generator, i: nat): nat
    requires GeneratorValid(g)
  {
    if i == 0 then 0
    else CsYielded(g, i - 1) + (if Next(Advance(g, i)).0.name == C then 1 else 0)
  }

  /** The number of "C"s among notes 1..i of the sequence started at `start`. */
  function CsPassed(start: Pitch, i: nat): nat
  {
    CsYielded(Start(start), i)
  }

  /** Past the first yield, the octave counter has gone up once per "C". */
  lemma {:induction false} YieldCountsCs(g: Generator, i: nat)
    requires GeneratorValid(g)
    ensures Next(Advance(g, i)).0.octave == Next(g).0.octave + CsYielded(g, i)
  {
    if i > 0 {
      YieldCountsCs(g, i - 1);
      YieldStep(g, i - 1);
    }
  }

  /** The octave of note i is the number of "C"s among notes 1..i. */
  lemma OctaveCountsCs(start: Pitch, i: nat)
    ensures NoteAt(start, i).octave == CsPassed(start, i)
  {
    YieldCountsCs(Start(start), i);
    FirstNote(start);
  }

  /** The octave of note i is at most the ceiling of i / 12. */
  lemma OctaveBound(start: Pitch, i: nat)
    ensures NoteAt(start, i).octave <= (i + 11) / 12
  {
    NoteOctave(start, i);
  }

  lemma ModHit(p: nat, k: nat, m: nat)
    requires p < 12 && m < 12
    ensures k <= k + (m + 24 - (p + k) % 12) % 12 < k + 12
    ensures (p + k + (m + 24 - (p + k) % 12) % 12) % 12 == m
  {
  }

  lemma ModApart(p: nat, j1: nat, j2: nat)
    requires j1 < j2 < j1 + 12
    ensures (p + j1) % 12 != (p + j2) % 12
  {
  }

  /** Pitch x is the name of one of the twelve notes starting at index k. */
  predicate InWindow(start: Pitch, k: nat, x: Pitch) {
    exists j: nat :: k <= j < k + 12 && NoteAt(start, j).name == x
  }

  /** Note j is named by the entry its cyclic index selects. */
  lemma NameAt(start: Pitch, j: nat, m: nat)
    requires m < 12 && (Pivot(start) + j) % 12 == m
    ensures NoteAt(start, j).name == Notes[m]
  {
    NoteName(start, j);
  }

  lemma WindowHas(start: Pitch, k: nat, x: Pitch)
    ensures InWindow(start, k, x)
  {
    var p, m := Pivot(start), Pivot(x);
    var j := k + (m + 24 - (p + k) % 12) % 12;
    ModHit(p, k, m);
    NameAt(start, j, m);
    assert k <= j < k + 12 && NoteAt(start, j).name == x;
  }

  /** Two notes fewer than twelve apart have different names. */
  lemma WindowDistinct(start: Pitch, j1: nat, j2: nat)
    requires j1 < j2 < j1 + 12
    ensures NoteAt(start, j1).name != NoteAt(start, j2).name
  {
    NotesFacts();
    NoteName(start, j1);
    NoteName(start, j2);
    ModApart(Pivot(start), j1, j2);
  }

  /** Any twelve consecutive notes carry each of the twelve names exactly once:
      every pitch occurs, and no name occurs twice. */
  lemma TwelveConsecutive(start: Pitch, k: nat)
    ensures forall x: Pitch :: InWindow(start, k, x)
    ensures forall j1, j2 :: k <= j1 < j2 < k + 12 ==> NoteAt(start, j1).name != NoteAt(start, j2).name
  {
    forall x: Pitch
      ensures InWindow(start, k, x)
    {
      WindowHas(start, k, x);
    }
    forall j1, j2 | k <= j1 < j2 < k + 12
      ensures NoteAt(start, j1).name != NoteAt(start, j2).name
    {
      WindowDistinct(start, j1, j2);
    }
  }

  lemma ModSame(p: nat, i: nat, j: nat)
    requires i < j && (p + i) % 12 == (p + j) % 12
    ensures j >= i + 12
  {
  }

  lemma FormulaShift(p: nat, i: nat, j: nat)
    requires p < 12 && i + 12 <= j
    ensures OctaveFormula(p, j) >= OctaveFormula(p, i) + 1
  {
  }

  /** No (name, octave) pair is yielded twice, so every key of a rendered
      keyboard can be addressed by its name and octave. */
  lemma NotesUnique(start: Pitch, i: nat, j: nat)
    requires i < j
    ensures NoteAt(start, i) != NoteAt(start, j)
  {
    NoteAtClosedForm(start, i);
    NoteAtClosedForm(start, j);
    ClosedUnique(Pivot(start), i, j);
  }

  /** In closed form, two indices give the same name only twelve or more
      apart, and by then the octave has gone up. */
  lemma ClosedUnique(p: nat, i: nat, j: nat)
    requires p < 12 && i < j
    ensures NoteFrom(p, i) != NoteFrom(p, j)
  {
    NotesFacts();
    if (p + i) % 12 == (p + j) % 12 {
      ModSame(p, i, j);
      FormulaShift(p, i, j);
    }
  }

  /** The first n notes in closed form, for a walk that starts at `Notes[p]`. */
  function Closed(p: nat, n: nat): (notes: seq<Note>)
    requires p < 12
    ensures |notes| == n
  {
    seq(n, i requires 0 <= i => NoteFrom(p, i))
  }

  /** Taking n notes from the generator gives the closed form. */
  lemma TakeClosed(start: Pitch, n: nat)
    ensures Take(start, n) == Closed(Pivot(start), n)
  {
    var p := Pivot(start);
    forall i | 0 <= i < n
      ensures Take(start, n)[i] == Closed(p, n)[i]
    {
      NoteAtClosedForm(start, i);
      assert Closed(p, n)[i] == NoteFrom(p, i);
    }
  }

  /** The sequence started at "C": thirteen notes, octave 1 only at the end. */
  lemma StartingAtC()
    ensures Take(C, 13) == [
      Note(C, 0), Note(CSharp, 0), Note(D, 0), Note(DSharp, 0), Note(E, 0),
      Note(F, 0), Note(FSharp, 0), Note(G, 0), Note(GSharp, 0), Note(A, 0),
      Note(ASharp, 0), Note(B, 0), Note(C, 1)]
  {
    ClosedC();
    TakeVector(C, 3, 13, Closed(3, 13));
  }

  /** A test vector for the sequence follows from one for its closed form. */
  lemma TakeVector(start: Pitch, p: nat, n: nat, v: seq<Note>)
    requires p < 12 && Pivot(start) == p && Closed(p, n) == v
    ensures Take(start, n) == v
  {
    TakeClosed(start, n);
  }

  lemma ClosedC()
    ensures Closed(3, 13) == [
      Note(C, 0), Note(CSharp, 0), Note(D, 0), Note(DSharp, 0), Note(E, 0),
      Note(F, 0), Note(FSharp, 0), Note(G, 0), Note(GSharp, 0), Note(A, 0),
      Note(ASharp, 0), Note(B, 0), Note(C, 1)]
  {
    assert FirstC(3) == 12;
    assert NoteFrom(3, 0) == Note(C, 0);
    assert NoteFrom(3, 1) == Note(CSharp, 0);
    assert NoteFrom(3, 2) == Note(D, 0);
    assert NoteFrom(3, 3) == Note(DSharp, 0);
    assert NoteFrom(3, 4) == Note(E, 0);
    assert NoteFrom(3, 5) == Note(F, 0);
    assert NoteFrom(3, 6) == Note(FSharp, 0);
    assert NoteFrom(3, 7) == Note(G, 0);
    assert NoteFrom(3, 8) == Note(GSharp, 0);
    assert NoteFrom(3, 9) == Note(A, 0);
    assert NoteFrom(3, 10) == Note(ASharp, 0);
    assert NoteFrom(3, 11) == Note(B, 0);
    assert NoteFrom(3, 12) == Note(C, 1);
  }

  /** The sequence started at "A": "C" is the fourth note and opens octave 1. */
  lemma StartingAtA()
    ensures Take(A, 12) == [
      Note(A, 0), Note(ASharp, 0), Note(B, 0), Note(C, 1), Note(CSharp, 1),
      Note(D, 1), Note(DSharp, 1), Note(E, 1), Note(F, 1), Note(FSharp, 1),
      Note(G, 1), Note(GSharp, 1)]
  {
    ClosedA();
    TakeVector(A, 0, 12, Closed(0, 12));
  }

  lemma ClosedA()
    ensures Closed(0, 12) == [
      Note(A, 0), Note(ASharp, 0), Note(B, 0), Note(C, 1), Note(CSharp, 1),
      Note(D, 1), Note(DSharp, 1), Note(E, 1), Note(F, 1), Note(FSharp, 1),
      Note(G, 1), Note(GSharp, 1)]
  {
    assert FirstC(0) == 3;
    assert NoteFrom(0, 0) == Note(A, 0);
    assert NoteFrom(0, 1) == Note(ASharp, 0);
    assert NoteFrom(0, 2) == Note(B, 0);
    assert NoteFrom(0, 3) == Note(C, 1);
    assert NoteFrom(0, 4) == Note(CSharp, 1);
    assert NoteFrom(0, 5) == Note(D, 1);
    assert NoteFrom(0, 6) == Note(DSharp, 1);
    assert NoteFrom(0, 7) == Note(E, 1);
    assert NoteFrom(0, 8) == Note(F, 1);
    assert NoteFrom(0, 9) == Note(FSharp, 1);
    assert NoteFrom(0, 10) == Note(G, 1);
    assert NoteFrom(0, 11) == Note(GSharp, 1);
  }
}
